=== FILE: README.md ===
# Property favorites API: a Dafny model

This project models a small CRUD backend in which customers mark property listings as
favorites. The backend keeps three tables in one relational store:

- `Users`: id, unique username, creation time.
- `Properties`: id, title, price, location, optional image URL, optional description.
- `Favorites`: a link between a user and a property, keyed by the pair (userId, propertyId).

Three controllers expose the store over HTTP. The model covers the schema declared by the
database context: the composite favorite key, the unique username index, the two cascading
foreign keys and the seed rows. It also covers every endpoint of the three controllers.

The store is an immutable value `Store.Db`. It holds the three tables as sequences; the model
keeps its own row order, the code specifies none, and no contract states one. It also holds the
next value of each identity column. `Store.Valid` states the schema's constraints:

- Primary keys are distinct.
- Usernames are distinct.
- Favorite pairs are distinct.
- Every favorite names an existing user and an existing property.
- Identity values lie below their counters.

Each mutating endpoint is a pure function from a store to a `Step`. A `Step` holds the store
afterwards and a `Reply`, which is either `Ok(payload)` or `Err(Validation | NotFound | Conflict)`.
Each endpoint's contract states its error precedence, that the store is unchanged on every
error, and what a success changes. A separate lemma per endpoint proves that it keeps
`Store.Valid`. `Api.ReachableStoresValid` proves that every store reachable from the seed
satisfies the schema. The two listings that join favorites with properties are methods with
loops, mirroring the controllers' `foreach` loops.

Modules and files:

- `wrappers.dfy`: `Option`.
- `seqs.dfy`: `Filter`, `Find` and key sets, standing in for LINQ's `Where`, `FirstOrDefault` and `Any`.
- `models.dfy`: the entities and replies.
- `store.dfy`: the schema, the cascading deletes and the seed.
- `users.dfy`, `properties.dfy`, `favorites.dfy`: the three controllers.
- `decimal.dfy`: integer formatting for the share URL.
- `api.dfy`: the endpoints as a state machine.

Modelling choices:

- Prices are whole numbers of cents. For example, 3500000.00 is `350000000`.
- Clock readings are an input `now: Timestamp`. The seed's creation times are whole days before `now`.
- A JSON field that is missing from the request is `None`. An explicit JSON `null` in a string field is `Some("")`, because the code turns it into "".
- Ids are unbounded integers.
- The share URL's scheme and host come from the HTTP request, so they are parameters.
- POST /api/favorites is modelled in its toggling form: a repeated request removes the favorite instead of being refused.

`CreateUser` rejects only a missing or empty username (`string.IsNullOrEmpty`). A username
made only of spaces is accepted, and so it is in the model.

## Model

| member | source | states |
|---|---|---|
| Store.FindUser | Controllers/UsersController.cs:45-47 | a lookup by primary key finds a stored row with that id exactly when the id is in the table |
| Store.FindProperty | Controllers/PropertiesController.cs:48-50 | a lookup by primary key finds a stored row with that id exactly when the id is in the table |
| Store.UserRowUnique | Models/User.cs:8-10 | in a valid store the user primary key identifies one row, and lookup returns it |
| Store.PropertyRowUnique | Models/Property.cs:8-10 | in a valid store the property primary key identifies one row, and lookup returns it |
| Store.DeleteUserRow | Data/ApplicationDbContext.cs:32-36 | deleting a user removes that user, every favorite with its userId and no other favorite; properties untouched |
| Store.DeletePropertyRow | Data/ApplicationDbContext.cs:38-42 | deleting a property removes it, every favorite with its propertyId and no other favorite; users untouched |
| Store.DeleteFavoriteRow | Data/ApplicationDbContext.cs:25-26 | deleting by composite key removes exactly that pair from the favorite key set and keeps every other favorite |
| Store.DeleteUserRowKeepsValid | Data/ApplicationDbContext.cs:25-42 | the user cascade keeps keys, unique usernames and both foreign keys intact |
| Store.DeletePropertyRowKeepsValid | Data/ApplicationDbContext.cs:25-42 | the property cascade keeps keys, unique usernames and both foreign keys intact |
| Store.DeleteFavoriteRowKeepsValid | Data/ApplicationDbContext.cs:25-26 | deleting a favorite keeps every schema constraint |
| Store.SeedUsersFacts | Data/ApplicationDbContext.cs:49-53 | the seed users have ids 1-3, distinct ids and distinct usernames |
| Store.SeedPropertiesFacts | Data/ApplicationDbContext.cs:55-101 | the seed properties have ids 1-5, all distinct |
| Store.SeedFavoritesFacts | Data/ApplicationDbContext.cs:103-111 | the seed has 7 favorites whose pairs are distinct and are exactly the listed seven |
| Store.SeedValid | Data/ApplicationDbContext.cs:44-111 | the seeded store satisfies every schema constraint: all favorites reference seeded users and properties |
| Users.GetUsersListsEachUserOnce | Controllers/UsersController.cs:24-38 | the user listing has one entry per stored user id, with no id twice |
| Users.GetUser | Controllers/UsersController.cs:45-63 | Ok exactly when the id exists, with a stored row of that id; otherwise NotFound |
| Users.CreateUser | Controllers/UsersController.cs:70-101 | missing or empty name is Validation, a taken name is Conflict, both leave the store unchanged; success appends one user with the given name, a fresh id and time now, nothing else changes |
| Users.CreateUserKeepsValid | Controllers/UsersController.cs:78-92 | creating a user keeps the unique username index and every other constraint |
| Users.CreateUserTwiceConflicts | Controllers/UsersController.cs:78-83 | creating the same name twice: the second is Conflict with no change, and exactly one user has that name |
| Users.DeleteUser | Controllers/UsersController.cs:108-120 | NotFound with no change for a missing id; otherwise the user and exactly its favorites are gone, other users and all properties remain |
| Users.DeleteUserKeepsValid | Controllers/UsersController.cs:116-117 | deleting a user keeps every schema constraint |
| Properties.GetPropertiesListsEachPropertyOnce | Controllers/PropertiesController.cs:24-41 | the property listing has one entry per stored property id, with no id twice |
| Properties.GetProperty | Controllers/PropertiesController.cs:48-66 | Ok exactly when the id exists, with a stored row of that id; otherwise NotFound |
| Properties.CreateProperty | Controllers/PropertiesController.cs:73-95 | always succeeds; missing title/location become "", missing price 0, image URL and description stay absent; a fresh id is appended and users and favorites are unchanged |
| Properties.CreatePropertyKeepsValid | Controllers/PropertiesController.cs:73-83 | creating a property keeps every schema constraint |
| Properties.CreatePropertyOnSeed | Controllers/PropertiesController.cs:75-79 | on the seed, creating {Test, 100.00, X} yields id 6 with no image URL or description |
| Properties.UpdateProperty | Controllers/PropertiesController.cs:102-128 | NotFound with no change for a missing id; otherwise each present field overwrites and each omitted field keeps the stored value, ids and other rows unchanged, users and favorites unchanged |
| Properties.UpdateKeepsOptionalFieldsPresent | Controllers/PropertiesController.cs:113-114 | an update never makes a present image URL or description absent |
| Properties.UpdatePropertyIdempotent | Controllers/PropertiesController.cs:110-116 | sending the same partial update twice gives the same reply and store as sending it once |
| Properties.UpdatePropertyKeepsValid | Controllers/PropertiesController.cs:102-116 | updating a property keeps every schema constraint |
| Properties.DeleteProperty | Controllers/PropertiesController.cs:135-147 | NotFound with no change for a missing id; otherwise the property and exactly its favorites are gone, users unchanged |
| Properties.DeletePropertyKeepsValid | Controllers/PropertiesController.cs:143-144 | deleting a property keeps every schema constraint |
| Favorites.GetFavorites | Controllers/FavoritesController.cs:24-55 | every entry is a stored favorite passing the user filter, carrying its property's fields; in a valid store every such favorite is listed, none twice |
| Favorites.GetUserFavoriteProperties | Controllers/FavoritesController.cs:62-90 | NotFound exactly when the user is absent; otherwise only properties the user favorited, and in a valid store all of them, none twice |
| Favorites.ToggleFavorite | Controllers/FavoritesController.cs:97-149 | Validation, then NotFound for user, then NotFound for property, store unchanged on each; on a valid pair an existing favorite is removed alone, a missing one is added alone |
| Favorites.ToggleFavoriteKeepsValid | Controllers/FavoritesController.cs:102-141 | toggling keeps pair uniqueness and referential integrity |
| Favorites.ToggleTwiceRestores | Controllers/FavoritesController.cs:115-141 | toggling the same pair twice restores the favorite pair set; after an add it restores the whole store |
| Favorites.RemoveFavorite | Controllers/FavoritesController.cs:156-169 | NotFound with no change if the pair is absent; otherwise only that pair is removed |
| Favorites.RemoveFavoriteKeepsValid | Controllers/FavoritesController.cs:165-166 | removing a favorite keeps every schema constraint |
| Favorites.RemoveTwiceNotFound | Controllers/FavoritesController.cs:156-163 | an immediate second removal of the same pair is NotFound |
| Favorites.GetShareUrl | Controllers/FavoritesController.cs:176-192 | NotFound exactly when the user is absent; otherwise a URL on the request's origin whose path routes back to that user's favorite properties, with the id written in its canonical decimal form |
| Decimal.IntToStringRoundTrip | Controllers/FavoritesController.cs:183 | the user id interpolated into the share URL binds back to the same id |
| Api.ApplyKeepsValid | Data/ApplicationDbContext.cs:25-42 | every mutating endpoint keeps the schema's constraints |
| Api.RunKeepsValid | Data/ApplicationDbContext.cs:25-42 | any sequence of endpoint calls keeps the schema's constraints |
| Api.ReachableStoresValid | Data/ApplicationDbContext.cs:21-111 | every store reachable from the seed satisfies the schema |
| Api.GetMissingUserOnSeed | Controllers/UsersController.cs:47-54 | on the seed, user 999 is NotFound |
| Api.ToggleOnSeed | Controllers/FavoritesController.cs:115-149 | on the seed, toggling (1, 2) adds it and toggling again removes it |

## Left out

- The HTTP layer is left out: routing, status codes, JSON serialisation and the message texts. Several error paths answer 200 with an error object; the model only keeps the kind of error.
- Entity Framework plumbing is left out: async queries, change tracking and `SaveChangesAsync`. The model is sequential, so the race between an existence check and the following insert cannot happen.
- The model enforces the schema policy the database context declares. Whether the in-memory provider enforces the unique index and the cascades is not modelled.
- Clock readings (`DateTime.UtcNow`) are an input parameter, not a clock.
- JSON coercion is left out. An explicit JSON `null` in a string field becomes "" in the code, and the model takes it as `Some("")`. An explicit `null` or a non-numeric string as price makes `ToObject<decimal>` throw. The model folds an explicit `null` price into a missing field and does not model the throw. Other token types are not modelled either (a JSON boolean price, for one, converts to 1 or 0).
- Properties.CreateProperty: an explicit `null` price is treated as missing and stored as 0, where the code throws instead of answering.
- Properties.UpdateProperty: an explicit `null` price is treated as missing and keeps the stored price, where the code throws instead of answering.
- The `MaxLength` and `decimal(10,2)` annotations are not checked by any logic in the code, so they are not modelled. Prices are integer cents.
- C# `int` is 32 bits wide, but ids are unbounded here. Identity-counter overflow is not modelled.
- The strict variant of POST /api/favorites, which refuses a duplicate pair with a conflict, is not modelled. Only the toggling form is present in the code.
- Users.GetUsers and Properties.GetProperties have no contract of their own. Each returns its table unchanged, because the projection has exactly the row's fields. The properties of the listings are stated by `Users.GetUsersListsEachUserOnce` and `Properties.GetPropertiesListsEachPropertyOnce`.
- Favorites.GetFavorites states completeness and no-duplicates only for stores that satisfy the schema. A favorite whose property is missing is dropped, as an inner join drops it.
- Favorites.GetUserFavoriteProperties states completeness and no-duplicates only for stores that satisfy the schema, for the same reason.
- Properties.UpdatePropertyIdempotent is proved only for stores that satisfy the schema, where the id names one row.
- Listing order is not modelled: the listing queries have no `OrderBy` and the provider is not part of this model, so the contracts speak of which rows are listed, not in what order.
- The read endpoints do not change the store, so they are not calls of the `Api` state machine.

=== FILE: api.dfy ===
/**
 * The store as a state machine: the mutating endpoints as calls applied in sequence from the
 * seed. The read endpoints leave the store unchanged and are not calls here.
 */
module Api {
  import opened Wrappers
  import opened Models
  import opened Store
  import Users
  import Properties
  import Favorites

  datatype Call =
    | PostUser(username: Option<string>, now: Timestamp)
    | DeleteUser(userId: int)
    | PostProperty(input: Properties.PropertyInput)
    | PutProperty(propertyId: int, input: Properties.PropertyInput)
    | DeleteProperty(propertyId: int)
    | PostFavorite(request: Option<Favorites.FavoriteRequest>, now: Timestamp)
    | DeleteFavorite(userId: int, propertyId: int)

  /** The store after one call, whatever its reply. */
  function Apply(db: Db, call: Call): Db {
    match call
    case PostUser(username, now) => Users.CreateUser(db, username, now).db
    case DeleteUser(id) => Users.DeleteUser(db, id).db
    case PostProperty(input) => Properties.CreateProperty(db, input).db
    case PutProperty(id, input) => Properties.UpdateProperty(db, id, input).db
    case DeleteProperty(id) => Properties.DeleteProperty(db, id).db
    case PostFavorite(request, now) => Favorites.ToggleFavorite(db, request, now).db
    case DeleteFavorite(u, p) => Favorites.RemoveFavorite(db, u, p).db
  }

  /** The store after the calls, in order. */
  function Run(db: Db, calls: seq<Call>): Db
    decreases |calls|
  {
    if calls == [] then db else Run(Apply(db, calls[0]), calls[1..])
  }

  /** Every endpoint keeps the schema's constraints. */
  lemma ApplyKeepsValid(db: Db, call: Call)
    requires Valid(db)
    ensures Valid(Apply(db, call))
  {
    match call
    case PostUser(username, now) => Users.CreateUserKeepsValid(db, username, now);
    case DeleteUser(id) => Users.DeleteUserKeepsValid(db, id);
    case PostProperty(input) => Properties.CreatePropertyKeepsValid(db, input);
    case PutProperty(id, input) => Properties.UpdatePropertyKeepsValid(db, id, input);
    case DeleteProperty(id) => Properties.DeletePropertyKeepsValid(db, id);
    case PostFavorite(request, now) => Favorites.ToggleFavoriteKeepsValid(db, request, now);
    case DeleteFavorite(u, p) => Favorites.RemoveFavoriteKeepsValid(db, u, p);
  }

  lemma {:induction false} RunKeepsValid(db: Db, calls: seq<Call>)
    requires Valid(db)
    ensures Valid(Run(db, calls))
    decreases |calls|
  {
    if calls != [] {
      ApplyKeepsValid(db, calls[0]);
      RunKeepsValid(Apply(db, calls[0]), calls[1..]);
    }
  }

  /**
   * Every store reachable from the seed satisfies the schema: unique keys, unique usernames,
   * and favorites that name existing users and properties.
   */
  lemma ReachableStoresValid(now: Timestamp, calls: seq<Call>)
    ensures Valid(Run(Seed(now), calls))
  {
    SeedValid(now);
    RunKeepsValid(Seed(now), calls);
  }

  /** On the seed, user 999 does not exist. */
  lemma GetMissingUserOnSeed(now: Timestamp)
    ensures Users.GetUser(Seed(now), 999) == Err(NotFound)
  {
    SeedValid(now);
  }

  /** On the seed, toggling (1, 2) adds that favorite, and toggling it again removes it. */
  lemma ToggleOnSeed(now: Timestamp, t1: Timestamp, t2: Timestamp)
    ensures var request := Some(Favorites.FavoriteRequest(1, 2));
            var r1 := Favorites.ToggleFavorite(Seed(now), request, t1);
            && r1.reply == Ok(Favorites.Added(Favorite(1, 2, t1)))
            && Favorites.ToggleFavorite(r1.db, request, t2).reply == Ok(Favorites.Removed(1, 2))
  {
    SeedValid(now);
    var request := Some(Favorites.FavoriteRequest(1, 2));
    Favorites.ToggleTwiceRestores(Seed(now), request, t1, t2);
  }
}

=== FILE: decimal.dfy ===
/** Decimal text of integers, as interpolated into URLs and parsed back from route segments. */
module Decimal {
  import opened Wrappers

  predicate IsDigit(c: char) {
    '0' <= c <= '9'
  }

  predicate AllDigits(s: string) {
    forall i | 0 <= i < |s| :: IsDigit(s[i])
  }

  function DigitValue(c: char): nat
    requires IsDigit(c)
  {
    (c as int) - ('0' as int)
  }

  function DigitChar(d: nat): (c: char)
    requires d < 10
    ensures IsDigit(c) && DigitValue(c) == d
  {
    (('0' as int) + d) as char
  }

  /** The decimal digits of `n`, most significant first, with no leading zero ("0" for zero). */
  function NatToString(n: nat): (s: string)
    ensures 0 < |s| && AllDigits(s)
    ensures |s| > 1 ==> s[0] != '0'
    decreases n
  {
    if n < 10 then [DigitChar(n)] else NatToString(n / 10) + [DigitChar(n % 10)]
  }

  /** An integer formatted as in string interpolation: a '-' sign for negatives, then the digits. */
  function IntToString(n: int): string {
    if n < 0 then "-" + NatToString(-n) else NatToString(n)
  }

  /** The value of a string of decimal digits. */
  function DigitsValue(s: string): nat
    requires AllDigits(s)
    decreases |s|
  {
    if s == [] then 0 else DigitsValue(s[..|s| - 1]) * 10 + DigitValue(s[|s| - 1])
  }

  /** The plain decimal forms of an int route segment: an optional '-' followed by one or more digits. It is applied here only to text that `IntToString` produces. */
  function ParseInt(s: string): Option<int> {
    if 0 < |s| && s[0] == '-' then
      if 1 < |s| && AllDigits(s[1..]) then Some(-(DigitsValue(s[1..]) as int)) else None
    else if 0 < |s| && AllDigits(s) then Some(DigitsValue(s))
    else None
  }

  lemma {:induction false} NatToStringValue(n: nat)
    ensures DigitsValue(NatToString(n)) == n
    decreases n
  {
    var s := NatToString(n);
    if n >= 10 {
      NatToStringValue(n / 10);
      assert s[..|s| - 1] == NatToString(n / 10);
    }
  }

  /** Formatting an integer and parsing the text back gives the same integer. */
  lemma IntToStringRoundTrip(n: int)
    ensures ParseInt(IntToString(n)) == Some(n)
  {
    if n < 0 {
      NatToStringValue(-n);
      assert IntToString(n)[1..] == NatToString(-n);
    } else {
      NatToStringValue(n);
    }
  }
}

=== FILE: favorites.dfy ===
/**
 * The favorites endpoints: listing with an optional user filter, a user's favorited
 * properties, the toggling POST, removal, and the share URL.
 */
module Favorites {
  import opened Wrappers
  import opened Models
  import opened Store
  import Seqs
  import Decimal

  /** The property fields embedded in each favorite of the listing (no description). */
  datatype PropertySummary = PropertySummary(
    id: int,
    title: string,
    price: int,
    location: string,
    imageUrl: Option<string>)

  /** One entry of GET /api/favorites: the favorite row joined with its property. */
  datatype FavoriteView = FavoriteView(
    userId: int,
    propertyId: int,
    createdAt: Timestamp,
    property: PropertySummary)

  function Summary(p: Property): PropertySummary {
    PropertySummary(p.id, p.title, p.price, p.location, p.imageUrl)
  }

  /** The favorite row an entry of the listing was built from. */
  function RowOf(v: FavoriteView): Favorite {
    Favorite(v.userId, v.propertyId, v.createdAt)
  }

  function KeyOfView(v: FavoriteView): (int, int) {
    (v.userId, v.propertyId)
  }

  /** The `?userId=` filter: absent selects every favorite, present selects that user's. */
  predicate Selected(filter: Option<int>, f: Favorite) {
    filter.None? || f.userId == filter.value
  }

  /**
   * GET /api/favorites[?userId=u]: the selected favorites, each joined with
   * its property. Every entry is a selected stored favorite carrying its property's fields;
   * in a valid store every selected favorite is listed, and none twice.
   */
  method GetFavorites(db: Db, userId: Option<int>) returns (r: seq<FavoriteView>)
    ensures forall v | v in r :: RowOf(v) in db.favorites && Selected(userId, RowOf(v))
    ensures forall v | v in r ::
              FindProperty(db, v.propertyId).Some? && v.property == Summary(FindProperty(db, v.propertyId).value)
    ensures Valid(db) ==>
              forall f | f in db.favorites && Selected(userId, f) :: f in Seqs.KeySet(r, RowOf)
    ensures Valid(db) ==> Seqs.KeysDistinct(r, KeyOfView)
  {
    r := [];
    var i := 0;
    while i < |db.favorites|
      invariant 0 <= i <= |db.favorites|
      invariant forall v | v in r :: RowOf(v) in db.favorites[..i] && Selected(userId, RowOf(v))
      invariant forall v | v in r ::
                  FindProperty(db, v.propertyId).Some? && v.property == Summary(FindProperty(db, v.propertyId).value)
      invariant Valid(db) ==>
                  forall f | f in db.favorites[..i] && Selected(userId, f) :: f in Seqs.KeySet(r, RowOf)
      invariant Valid(db) ==> Seqs.KeysDistinct(r, KeyOfView)
    {
      var f := db.favorites[i];
      assert db.favorites[..i + 1] == db.favorites[..i] + [f];
      if Selected(userId, f) {
        match FindProperty(db, f.propertyId)
        case Some(p) =>
          var v := FavoriteView(f.userId, f.propertyId, f.createdAt, Summary(p));
          assert RowOf(v) == f;
          Seqs.KeySetAppend(r, v, RowOf);
          if Valid(db) {
            Seqs.KeyNotInPrefix(db.favorites, i, KeyOfFavorite);
            forall w | w in r ensures KeyOfView(w) != KeyOfView(v) {
              assert KeyOfView(w) == KeyOfFavorite(RowOf(w));
              assert KeyOfFavorite(RowOf(w)) in Seqs.KeySet(db.favorites[..i], KeyOfFavorite);
            }
            Seqs.AppendKeysDistinct(r, v, KeyOfView);
          }
          r := r + [v];
        case None =>
      }
      i := i + 1;
    }
    assert db.favorites[..i] == db.favorites;
  }

  /**
   * GET /api/favorites/user/{userId}/properties: NotFound for an unknown user; otherwise the
   * properties the user has favorited. Every listed property is one the
   * user favorited; in a valid store every favorited property is listed, and none twice.
   */
  method GetUserFavoriteProperties(db: Db, userId: int) returns (r: Reply<seq<Property>>)
    ensures r.Err? <==> userId !in UserIds(db)
    ensures r.Err? ==> r.error == NotFound
    ensures r.Ok? ==> forall p | p in r.value :: p in db.properties && (userId, p.id) in FavoriteKeys(db)
    ensures r.Ok? && Valid(db) ==>
              forall p | p in db.properties && (userId, p.id) in FavoriteKeys(db) :: p in r.value
    ensures r.Ok? && Valid(db) ==> Seqs.KeysDistinct(r.value, IdOfProperty)
  {
    if userId !in UserIds(db) {
      return Err(NotFound);
    }
    var ps: seq<Property> := [];
    var i := 0;
    while i < |db.favorites|
      invariant 0 <= i <= |db.favorites|
      invariant forall p | p in ps ::
                  p in db.properties && (userId, p.id) in Seqs.KeySet(db.favorites[..i], KeyOfFavorite)
      invariant Valid(db) ==>
                  forall p | p in db.properties && (userId, p.id) in Seqs.KeySet(db.favorites[..i], KeyOfFavorite)
                    :: p in ps
      invariant Valid(db) ==> Seqs.KeysDistinct(ps, IdOfProperty)
    {
      var f := db.favorites[i];
      assert db.favorites[..i + 1] == db.favorites[..i] + [f];
      Seqs.KeySetAppend(db.favorites[..i], f, KeyOfFavorite);
      if f.userId == userId {
        match FindProperty(db, f.propertyId)
        case Some(q) =>
          if Valid(db) {
            Seqs.KeyNotInPrefix(db.favorites, i, KeyOfFavorite);
            forall p | p in ps ensures IdOfProperty(p) != IdOfProperty(q) {
              assert (userId, p.id) in Seqs.KeySet(db.favorites[..i], KeyOfFavorite);
            }
            Seqs.KeySetAppend(ps, q, IdOfProperty);
            Seqs.AppendKeysDistinct(ps, q, IdOfProperty);
            forall p | p in db.properties && p.id == f.propertyId ensures p == q {
              PropertyRowUnique(db, p);
            }
          }
          ps := ps + [q];
        case None =>
      }
      i := i + 1;
    }
    assert db.favorites[..i] == db.favorites;
    return Ok(ps);
  }

  /** The body of POST /api/favorites; a missing or unparsable body is None. */
  datatype FavoriteRequest = FavoriteRequest(userId: int, propertyId: int)

  /** What the toggle did: the pair was removed, or this favorite was added. */
  datatype Toggled = Removed(userId: int, propertyId: int) | Added(favorite: Favorite)

  /**
   * POST /api/favorites, the toggling form. Errors come in this order: a missing body or a
   * zero id, then an unknown user, then an unknown property; every error leaves the store as
   * it was. Otherwise an existing favorite for the pair is removed, and a missing one is added
   * with creation time `now`.
   */
  function ToggleFavorite(db: Db, request: Option<FavoriteRequest>, now: Timestamp): (r: Step<Toggled>)
    ensures r.reply.Err? ==> r.db == db
    ensures request.None? || request.value.userId == 0 || request.value.propertyId == 0
            ==> r.reply == Err(Validation)
    ensures request.Some? && request.value.userId != 0 && request.value.propertyId != 0
            && request.value.userId !in UserIds(db)
            ==> r.reply == Err(NotFound)
    ensures request.Some? && request.value.userId != 0 && request.value.propertyId != 0
            && request.value.userId in UserIds(db) && request.value.propertyId !in PropertyIds(db)
            ==> r.reply == Err(NotFound)
    ensures r.reply.Ok? <==>
              && request.Some? && request.value.userId != 0 && request.value.propertyId != 0
              && request.value.userId in UserIds(db) && request.value.propertyId in PropertyIds(db)
    ensures r.reply.Ok? ==>
              var key := (request.value.userId, request.value.propertyId);
              && r.db.users == db.users && r.db.properties == db.properties
              && r.db.nextUserId == db.nextUserId && r.db.nextPropertyId == db.nextPropertyId
              && (key in FavoriteKeys(db) ==>
                    && r.reply.value == Removed(key.0, key.1)
                    && FavoriteKeys(r.db) == FavoriteKeys(db) - {key}
                    && (forall f | f in db.favorites && KeyOfFavorite(f) != key :: f in r.db.favorites)
                    && (forall f | f in r.db.favorites :: f in db.favorites))
              && (key !in FavoriteKeys(db) ==>
                    && r.reply.value == Added(Favorite(key.0, key.1, now))
                    && r.db.favorites == db.favorites + [Favorite(key.0, key.1, now)])
  {
    if request.None? || request.value.userId == 0 || request.value.propertyId == 0 then
      Step(db, Err(Validation))
    else if request.value.userId !in UserIds(db) then
      Step(db, Err(NotFound))
    else if request.value.propertyId !in PropertyIds(db) then
      Step(db, Err(NotFound))
    else
      var u, p := request.value.userId, request.value.propertyId;
      if (u, p) in FavoriteKeys(db) then
        Step(DeleteFavoriteRow(db, u, p), Ok(Removed(u, p)))
      else
        var favorite := Favorite(u, p, now);
        Step(db.(favorites := db.favorites + [favorite]), Ok(Added(favorite)))
  }

  /** Toggling keeps every constraint of the schema: the composite key and both foreign keys. */
  lemma ToggleFavoriteKeepsValid(db: Db, request: Option<FavoriteRequest>, now: Timestamp)
    requires Valid(db)
    ensures Valid(ToggleFavorite(db, request, now).db)
  {
    var r := ToggleFavorite(db, request, now);
    if r.reply.Ok? {
      var u, p := request.value.userId, request.value.propertyId;
      if (u, p) in FavoriteKeys(db) {
        DeleteFavoriteRowKeepsValid(db, u, p);
      } else {
        var favorite := Favorite(u, p, now);
        Seqs.AppendKeysDistinct(db.favorites, favorite, KeyOfFavorite);
      }
    }
  }

  /**
   * Toggling the same pair twice restores the set of favorite pairs, and leaves users and
   * properties alone; when the first toggle added the pair, the store is restored exactly.
   */
  lemma ToggleTwiceRestores(db: Db, request: Option<FavoriteRequest>, now1: Timestamp, now2: Timestamp)
    requires ToggleFavorite(db, request, now1).reply.Ok?
    ensures var r1 := ToggleFavorite(db, request, now1);
            var r2 := ToggleFavorite(r1.db, request, now2);
            && r2.reply.Ok?
            && r2.reply.value.Removed? != r1.reply.value.Removed?
            && FavoriteKeys(r2.db) == FavoriteKeys(db)
            && r2.db.users == db.users && r2.db.properties == db.properties
            && (r1.reply.value.Added? ==> r2.db == db)
  {
    var u, p := request.value.userId, request.value.propertyId;
    var r1 := ToggleFavorite(db, request, now1);
    if (u, p) in FavoriteKeys(db) {
      assert (u, p) !in FavoriteKeys(r1.db);
      var r2 := ToggleFavorite(r1.db, request, now2);
      Seqs.KeySetAppend(r1.db.favorites, Favorite(u, p, now2), KeyOfFavorite);
    } else {
      var favorite := Favorite(u, p, now1);
      Seqs.KeySetAppend(db.favorites, favorite, KeyOfFavorite);
      var keep := (f: Favorite) => KeyOfFavorite(f) != (u, p);
      Seqs.FilterAppend(db.favorites, [favorite], keep);
      forall f | f in db.favorites ensures keep(f) {
        assert KeyOfFavorite(f) in FavoriteKeys(db);
      }
      Seqs.FilterKeepsAll(db.favorites, keep);
      Seqs.FilterKeepsNone([favorite], keep);
    }
  }

  /**
   * DELETE /api/favorites/user/{userId}/property/{propertyId}: NotFound, with the store
   * unchanged, when the pair is not a favorite; otherwise exactly that pair is removed.
   */
  function RemoveFavorite(db: Db, userId: int, propertyId: int): (r: Step<()>)
    ensures r.reply.Ok? <==> (userId, propertyId) in FavoriteKeys(db)
    ensures r.reply.Err? ==> r == Step(db, Err(NotFound))
    ensures r.reply.Ok? ==>
              && FavoriteKeys(r.db) == FavoriteKeys(db) - {(userId, propertyId)}
              && (forall f | f in db.favorites && KeyOfFavorite(f) != (userId, propertyId) :: f in r.db.favorites)
              && (forall f | f in r.db.favorites :: f in db.favorites)
              && r.db.users == db.users && r.db.properties == db.properties
  {
    var isPair := (f: Favorite) => KeyOfFavorite(f) == (userId, propertyId);
    match Seqs.Find(db.favorites, isPair)
    case None =>
      assert (userId, propertyId) !in FavoriteKeys(db) by {
        forall f | f in db.favorites ensures KeyOfFavorite(f) != (userId, propertyId) {
          assert !isPair(f);
        }
      }
      Step(db, Err(NotFound))
    case Some(_) => Step(DeleteFavoriteRow(db, userId, propertyId), Ok(()))
  }

  lemma RemoveFavoriteKeepsValid(db: Db, userId: int, propertyId: int)
    requires Valid(db)
    ensures Valid(RemoveFavorite(db, userId, propertyId).db)
  {
    DeleteFavoriteRowKeepsValid(db, userId, propertyId);
  }

  /** Removing the same pair again right after a successful removal answers NotFound. */
  lemma RemoveTwiceNotFound(db: Db, userId: int, propertyId: int)
    requires RemoveFavorite(db, userId, propertyId).reply.Ok?
    ensures var db1 := RemoveFavorite(db, userId, propertyId).db;
            RemoveFavorite(db1, userId, propertyId) == Step(db1, Err(NotFound))
  {
  }

  const ShareRoutePrefix: string := "/api/favorites/user/"
  const ShareRouteSuffix: string := "/properties"

  /** The user id that the path of GET /api/favorites/user/{userId}/properties binds, if it matches. */
  function RouteUserId(path: string): Option<int> {
    var n, m := |ShareRoutePrefix|, |ShareRouteSuffix|;
    if n + m <= |path| && path[..n] == ShareRoutePrefix && path[|path| - m..] == ShareRouteSuffix then
      Decimal.ParseInt(path[n..|path| - m])
    else
      None
  }

  /**
   * GET /api/favorites/share/{userId}: NotFound for an unknown user; otherwise a URL on the
   * request's scheme and host whose path routes back to the user's favorite properties. The id
   * segment is the id's canonical decimal text, as string interpolation writes it.
   */
  function GetShareUrl(db: Db, userId: int, scheme: string, host: string): (r: Reply<string>)
    ensures r.Ok? <==> userId in UserIds(db)
    ensures r.Err? ==> r.error == NotFound
    ensures r.Ok? ==>
              var origin := scheme + "://" + host;
              && |origin| <= |r.value|
              && r.value[..|origin|] == origin
              && RouteUserId(r.value[|origin|..]) == Some(userId)
              && r.value[|origin| + |ShareRoutePrefix|..|r.value| - |ShareRouteSuffix|] == Decimal.IntToString(userId)
  {
    if userId !in UserIds(db) then
      Err(NotFound)
    else
      var origin := scheme + "://" + host;
      var path := ShareRoutePrefix + Decimal.IntToString(userId) + ShareRouteSuffix;
      var url := origin + path;
      assert url[|origin|..] == path;
      Decimal.IntToStringRoundTrip(userId);
      assert path[|ShareRoutePrefix|..|path| - |ShareRouteSuffix|] == Decimal.IntToString(userId);
      Ok(url)
  }
}

=== FILE: models.dfy ===
/**
 * The three entities of the store and the results the controllers return.
 * Navigation collections (`User.Favorites`, `Property.Favorites`) are not fields here:
 * the favorites table itself is the relation.
 */
module Models {
  import opened Wrappers

  /** An instant; the controllers read it from the clock, the model receives it as input. */
  type Timestamp = int

  const SecondsPerDay: int := 86400

  datatype User = User(id: int, username: string, createdAt: Timestamp)

  /** `price` is a decimal with two fractional digits, held here as a whole number of cents. */
  datatype Property = Property(
    id: int,
    title: string,
    price: int,
    location: string,
    imageUrl: Option<string>,
    description: Option<string>)

  /** A favorite link; its key is the pair (userId, propertyId), it has no surrogate id. */
  datatype Favorite = Favorite(userId: int, propertyId: int, createdAt: Timestamp)

  /** Key selectors, named so that every table constraint refers to the same function. */
  function IdOfUser(u: User): int { u.id }
  function NameOfUser(u: User): string { u.username }
  function IdOfProperty(p: Property): int { p.id }
  function KeyOfFavorite(f: Favorite): (int, int) { (f.userId, f.propertyId) }

  /** The kinds of error payload an endpoint answers with. */
  datatype ApiError =
    | Validation   // required input missing or zero
    | NotFound     // the referenced row does not exist
    | Conflict     // the username is already taken

  datatype Reply<+T> = Ok(value: T) | Err(error: ApiError)
}

=== FILE: properties.dfy ===
/** The property endpoints: list, fetch, create with defaults, partial update, delete (cascading). */
module Properties {
  import opened Wrappers
  import opened Models
  import opened Store
  import Seqs

  /** A request body: each field is None when it is missing from the JSON object. */
  datatype PropertyInput = PropertyInput(
    title: Option<string>,
    price: Option<int>,
    location: Option<string>,
    imageUrl: Option<string>,
    description: Option<string>)

  /** GET /api/properties: the full projection of every stored property. */
  function GetProperties(db: Db): seq<Property> {
    db.properties
  }

  /** In a valid store the listing names every stored property exactly once. */
  lemma GetPropertiesListsEachPropertyOnce(db: Db)
    requires Valid(db)
    ensures Seqs.KeySet(GetProperties(db), IdOfProperty) == PropertyIds(db)
    ensures Seqs.KeysDistinct(GetProperties(db), IdOfProperty)
    ensures |GetProperties(db)| == |PropertyIds(db)|
  {
    Seqs.KeySetSize(db.properties, IdOfProperty);
  }

  /** GET /api/properties/{id}: the property with that id, or NotFound. */
  function GetProperty(db: Db, id: int): (r: Reply<Property>)
    ensures r.Ok? <==> id in PropertyIds(db)
    ensures r.Err? ==> r.error == NotFound
    ensures r.Ok? ==> r.value in db.properties && r.value.id == id
  {
    match FindProperty(db, id)
    case Some(p) => Ok(p)
    case None => Err(NotFound)
  }

  /**
   * POST /api/properties: no validation; a missing title or location becomes "", a missing
   * price 0, a missing image URL or description stays absent. The row gets the next identity value.
   */
  function CreateProperty(db: Db, input: PropertyInput): (r: Step<Property>)
    ensures r.reply.Ok?
    ensures var p := r.reply.value;
            && (input.title.None? ==> p.title == "")
            && (input.title.Some? ==> p.title == input.title.value)
            && (input.price.None? ==> p.price == 0)
            && (input.price.Some? ==> p.price == input.price.value)
            && (input.location.None? ==> p.location == "")
            && (input.location.Some? ==> p.location == input.location.value)
            && p.imageUrl == input.imageUrl
            && p.description == input.description
    ensures r.db.properties == db.properties + [r.reply.value]
    ensures r.db.users == db.users && r.db.favorites == db.favorites
    ensures r.db.nextUserId == db.nextUserId
    ensures Valid(db) ==> r.reply.value.id !in PropertyIds(db)
  {
    var p := Property(
      db.nextPropertyId,
      input.title.GetOr(""),
      input.price.GetOr(0),
      input.location.GetOr(""),
      input.imageUrl,
      input.description);
    Step(db.(properties := db.properties + [p], nextPropertyId := db.nextPropertyId + 1), Ok(p))
  }

  lemma CreatePropertyKeepsValid(db: Db, input: PropertyInput)
    requires Valid(db)
    ensures Valid(CreateProperty(db, input).db)
  {
    var p := CreateProperty(db, input).reply.value;
    Seqs.AppendKeysDistinct(db.properties, p, IdOfProperty);
    Seqs.KeySetAppend(db.properties, p, IdOfProperty);
  }

  /**
   * On the seed store, creating {title: "Test", price: 100, location: "X"} answers with id 6,
   * price 100.00 and no image URL or description.
   */
  lemma CreatePropertyOnSeed(now: Timestamp)
    ensures var r := CreateProperty(Seed(now), PropertyInput(Some("Test"), Some(10000), Some("X"), None, None));
            && r.reply == Ok(Property(6, "Test", 10000, "X", None, None))
            && PropertyIds(r.db) == {1, 2, 3, 4, 5, 6}
  {
    var r := CreateProperty(Seed(now), PropertyInput(Some("Test"), Some(10000), Some("X"), None, None));
    SeedValid(now);
    Seqs.KeySetAppend(Seed(now).properties, r.reply.value, IdOfProperty);
  }

  /** The stored row after a partial update: each field present in `input` replaces the stored one. */
  function Merge(p: Property, input: PropertyInput): Property {
    p.(title := input.title.GetOr(p.title),
       price := input.price.GetOr(p.price),
       location := input.location.GetOr(p.location),
       imageUrl := input.imageUrl.Or(p.imageUrl),
       description := input.description.Or(p.description))
  }

  /** The table after `UPDATE ... WHERE id = id`. */
  function UpdateRows(rows: seq<Property>, id: int, input: PropertyInput): seq<Property> {
    seq(|rows|, i requires 0 <= i < |rows| => if rows[i].id == id then Merge(rows[i], input) else rows[i])
  }

  /**
   * PUT /api/properties/{id}: NotFound for a missing id; otherwise every field present in the
   * input overwrites the stored one and every omitted field keeps its stored value.
   */
  function UpdateProperty(db: Db, id: int, input: PropertyInput): (r: Step<Property>)
    ensures r.reply.Ok? <==> id in PropertyIds(db)
    ensures r.reply.Err? ==> r == Step(db, Err(NotFound))
    ensures r.reply.Ok? ==>
              var before := FindProperty(db, id).value;
              var p := r.reply.value;
              && p.id == id
              && (input.title.Some? ==> p.title == input.title.value)
              && (input.title.None? ==> p.title == before.title)
              && (input.price.Some? ==> p.price == input.price.value)
              && (input.price.None? ==> p.price == before.price)
              && (input.location.Some? ==> p.location == input.location.value)
              && (input.location.None? ==> p.location == before.location)
              && (input.imageUrl.Some? ==> p.imageUrl == input.imageUrl)
              && (input.imageUrl.None? ==> p.imageUrl == before.imageUrl)
              && (input.description.Some? ==> p.description == input.description)
              && (input.description.None? ==> p.description == before.description)
    ensures r.reply.Ok? ==>
              && |r.db.properties| == |db.properties|
              && (forall i | 0 <= i < |db.properties| ::
                    r.db.properties[i].id == db.properties[i].id
                    && (db.properties[i].id != id ==> r.db.properties[i] == db.properties[i]))
              && r.reply.value in r.db.properties
              && r.db.users == db.users && r.db.favorites == db.favorites
              && r.db.nextUserId == db.nextUserId && r.db.nextPropertyId == db.nextPropertyId
  {
    match FindProperty(db, id)
    case None => Step(db, Err(NotFound))
    case Some(p) =>
      var rows := UpdateRows(db.properties, id, input);
      var i :| 0 <= i < |db.properties| && db.properties[i] == p;
      assert rows[i] == Merge(p, input);
      Step(db.(properties := rows), Ok(Merge(p, input)))
  }

  /** A partial update never turns a present image URL or description into an absent one. */
  lemma UpdateKeepsOptionalFieldsPresent(db: Db, id: int, input: PropertyInput)
    requires UpdateProperty(db, id, input).reply.Ok?
    ensures var before := FindProperty(db, id).value;
            var p := UpdateProperty(db, id, input).reply.value;
            && (before.imageUrl.Some? ==> p.imageUrl.Some?)
            && (before.description.Some? ==> p.description.Some?)
  {
  }

  /** Sending the same partial update twice leaves the store as sending it once. */
  lemma UpdatePropertyIdempotent(db: Db, id: int, input: PropertyInput)
    requires Valid(db)
    requires UpdateProperty(db, id, input).reply.Ok?
    ensures var db1 := UpdateProperty(db, id, input).db;
            var r2 := UpdateProperty(db1, id, input);
            && r2.reply == UpdateProperty(db, id, input).reply
            && r2.db == db1
  {
    var r1 := UpdateProperty(db, id, input);
    var db1 := r1.db;
    var q := r1.reply.value;
    UpdatePropertyKeepsValid(db, id, input);
    PropertyRowUnique(db1, q);
    assert Merge(q, input) == q;
    var rows := UpdateRows(db1.properties, id, input);
    forall i | 0 <= i < |rows| ensures rows[i] == db1.properties[i] {
      var p := db.properties[i];
      if p.id == id {
        assert db1.properties[i] == Merge(p, input);
      }
    }
  }

  lemma UpdatePropertyKeepsValid(db: Db, id: int, input: PropertyInput)
    requires Valid(db)
    ensures Valid(UpdateProperty(db, id, input).db)
  {
  }

  /**
   * DELETE /api/properties/{id}: NotFound for a missing id; otherwise the row is deleted and
   * the cascade deletes exactly the favorites of that property.
   */
  function DeleteProperty(db: Db, id: int): (r: Step<()>)
    ensures r.reply.Ok? <==> id in PropertyIds(db)
    ensures r.reply.Err? ==> r == Step(db, Err(NotFound))
    ensures r.reply.Ok? ==>
              && id !in PropertyIds(r.db)
              && (forall p | p in db.properties && p.id != id :: p in r.db.properties)
              && (forall p | p in r.db.properties :: p in db.properties)
              && (forall f | f in r.db.favorites :: f in db.favorites && f.propertyId != id)
              && (forall f | f in db.favorites && f.propertyId != id :: f in r.db.favorites)
              && r.db.users == db.users
  {
    match FindProperty(db, id)
    case None => Step(db, Err(NotFound))
    case Some(_) => Step(DeletePropertyRow(db, id), Ok(()))
  }

  lemma DeletePropertyKeepsValid(db: Db, id: int)
    requires Valid(db)
    ensures Valid(DeleteProperty(db, id).db)
  {
    DeletePropertyRowKeepsValid(db, id);
  }
}

=== FILE: seqs.dfy ===
/** Sequence helpers standing in for the LINQ operators the controllers use on tables. */
module Seqs {
  import opened Wrappers

  /** The elements of `s` that satisfy `keep`, in their original order (LINQ's `Where`). */
  function Filter<T>(s: seq<T>, keep: T -> bool): (r: seq<T>)
    ensures |r| <= |s|
    ensures forall x | x in r :: x in s && keep(x)
    ensures forall x | x in s && keep(x) :: x in r
  {
    if s == [] then []
    else if keep(s[0]) then [s[0]] + Filter(s[1..], keep)
    else Filter(s[1..], keep)
  }

  /** The first element of `s` that satisfies `matches` (LINQ's `FirstOrDefault`). */
  function Find<T>(s: seq<T>, matches: T -> bool): (r: Option<T>)
    ensures r.Some? ==> r.value in s && matches(r.value)
    ensures r.None? <==> forall x | x in s :: !matches(x)
  {
    if s == [] then None
    else if matches(s[0]) then Some(s[0])
    else Find(s[1..], matches)
  }

  /** The set of keys of the elements of `s`. */
  function KeySet<T(==), K(==)>(s: seq<T>, key: T -> K): set<K> {
    set x | x in s :: key(x)
  }

  /** No two positions of `s` carry the same key: `key` is a key of the table `s`. */
  ghost predicate KeysDistinct<T, K>(s: seq<T>, key: T -> K) {
    forall i, j | 0 <= i < j < |s| :: key(s[i]) != key(s[j])
  }

  /** Filtering a table cannot create a duplicate key. */
  lemma {:induction false} FilterKeysDistinct<T, K>(s: seq<T>, keep: T -> bool, key: T -> K)
    requires KeysDistinct(s, key)
    ensures KeysDistinct(Filter(s, keep), key)
  {
    if s != [] {
      var rest := s[1..];
      assert KeysDistinct(rest, key) by {
        forall i, j | 0 <= i < j < |rest| ensures key(rest[i]) != key(rest[j]) {
          assert rest[i] == s[i + 1] && rest[j] == s[j + 1];
        }
      }
      FilterKeysDistinct(rest, keep, key);
      var t := Filter(rest, keep);
      if keep(s[0]) {
        var r := [s[0]] + t;
        forall i, j | 0 <= i < j < |r| ensures key(r[i]) != key(r[j]) {
          if i == 0 {
            assert r[j] == t[j - 1];
            assert r[j] in rest;
            var k :| 0 <= k < |rest| && rest[k] == r[j];
            assert s[k + 1] == r[j];
          } else {
            assert r[i] == t[i - 1] && r[j] == t[j - 1];
          }
        }
      }
    }
  }

  /** Appending a row whose key is new keeps the keys distinct. */
  lemma AppendKeysDistinct<T, K>(s: seq<T>, x: T, key: T -> K)
    requires KeysDistinct(s, key)
    requires key(x) !in KeySet(s, key)
    ensures KeysDistinct(s + [x], key)
  {
    var r := s + [x];
    forall i, j | 0 <= i < j < |r| ensures key(r[i]) != key(r[j]) {
      if j == |s| {
        assert r[i] == s[i];
        assert key(s[i]) in KeySet(s, key);
      } else {
        assert r[i] == s[i] && r[j] == s[j];
      }
    }
  }

  lemma KeySetAppend<T, K>(s: seq<T>, x: T, key: T -> K)
    ensures KeySet(s + [x], key) == KeySet(s, key) + {key(x)}
  {
    var l := KeySet(s + [x], key);
    var r := KeySet(s, key) + {key(x)};
    forall k | k in l ensures k in r {
      var y :| y in s + [x] && key(y) == k;
      if y != x {
        assert y in s;
      }
    }
    forall k | k in r ensures k in l {
      if k != key(x) {
        var y :| y in s && key(y) == k;
        assert y in s + [x];
      } else {
        assert x in s + [x];
      }
    }
  }

  /** Filtering out exactly the rows whose key is `k` removes `k` from the key set and nothing else. */
  lemma FilterOutKey<T, K>(s: seq<T>, keep: T -> bool, key: T -> K, k: K)
    requires forall x | x in s :: keep(x) <==> key(x) != k
    ensures KeySet(Filter(s, keep), key) == KeySet(s, key) - {k}
  {
    var l := KeySet(Filter(s, keep), key);
    var r := KeySet(s, key) - {k};
    forall y | y in r ensures y in l {
      var x :| x in s && key(x) == y;
      assert x in Filter(s, keep);
    }
  }

  /** A filter that keeps every element is the identity. */
  lemma {:induction false} FilterKeepsAll<T>(s: seq<T>, keep: T -> bool)
    requires forall x | x in s :: keep(x)
    ensures Filter(s, keep) == s
  {
    if s != [] {
      assert forall x | x in s[1..] :: x in s;
      FilterKeepsAll(s[1..], keep);
      assert [s[0]] + s[1..] == s;
    }
  }

  /** A filter that keeps no element yields the empty sequence. */
  lemma {:induction false} FilterKeepsNone<T>(s: seq<T>, keep: T -> bool)
    requires forall x | x in s :: !keep(x)
    ensures Filter(s, keep) == []
  {
    if s != [] {
      assert forall x | x in s[1..] :: x in s;
      FilterKeepsNone(s[1..], keep);
    }
  }

  /** Filtering distributes over concatenation. */
  lemma {:induction false} FilterAppend<T>(a: seq<T>, b: seq<T>, keep: T -> bool)
    ensures Filter(a + b, keep) == Filter(a, keep) + Filter(b, keep)
  {
    if a == [] {
      assert a + b == b;
    } else {
      assert (a + b)[0] == a[0];
      assert (a + b)[1..] == a[1..] + b;
      FilterAppend(a[1..], b, keep);
    }
  }

  /** A table whose keys are distinct has as many keys as rows. */
  lemma {:induction false} KeySetSize<T, K>(s: seq<T>, key: T -> K)
    requires KeysDistinct(s, key)
    ensures |KeySet(s, key)| == |s|
  {
    if s != [] {
      var init := s[..|s| - 1];
      var last := s[|s| - 1];
      assert s == init + [last];
      assert KeysDistinct(init, key) by {
        forall i, j | 0 <= i < j < |init| ensures key(init[i]) != key(init[j]) {
          assert init[i] == s[i] && init[j] == s[j];
        }
      }
      KeySetSize(init, key);
      KeySetAppend(init, last, key);
      assert key(last) !in KeySet(init, key) by {
        forall y | y in init ensures key(y) != key(last) {
          var i :| 0 <= i < |init| && init[i] == y;
          assert s[i] == y;
        }
      }
    }
  }

  /** In a table with distinct keys, a row's key does not occur among the rows before it. */
  lemma KeyNotInPrefix<T, K>(s: seq<T>, i: int, key: T -> K)
    requires KeysDistinct(s, key)
    requires 0 <= i < |s|
    ensures key(s[i]) !in KeySet(s[..i], key)
  {
    forall y | y in s[..i] ensures key(y) != key(s[i]) {
      var j :| 0 <= j < i && s[..i][j] == y;
      assert s[j] == y;
    }
  }

  /** The keys of `s`, position by position. */
  function KeysOf<T, K>(s: seq<T>, key: T -> K): (r: seq<K>)
    ensures |r| == |s|
    ensures forall i | 0 <= i < |s| :: r[i] == key(s[i])
  {
    seq(|s|, i requires 0 <= i < |s| => key(s[i]))
  }

  lemma KeySetIsKeysOf<T, K>(s: seq<T>, key: T -> K)
    ensures KeySet(s, key) == set k | k in KeysOf(s, key)
  {
    var ks := KeysOf(s, key);
    forall k | k in KeySet(s, key) ensures k in ks {
      var x :| x in s && key(x) == k;
      var i :| 0 <= i < |s| && s[i] == x;
      assert ks[i] == k;
    }
    forall k | k in ks ensures k in KeySet(s, key) {
      var i :| 0 <= i < |ks| && ks[i] == k;
      assert s[i] in s;
    }
  }
}

=== FILE: store.dfy ===
/**
 * The relational store behind all three controllers: three tables, the constraints the
 * schema declares on them (composite favorite key, unique username index, cascading
 * foreign keys), and the seed rows it starts from.
 */
module Store {
  import opened Wrappers
  import opened Models
  import Seqs

  /**
   * The tables as sequences of rows, and the next value each identity column hands out.
   * The row order is the model's own; no contract depends on it.
   */
  datatype Db = Db(
    users: seq<User>,
    properties: seq<Property>,
    favorites: seq<Favorite>,
    nextUserId: int,
    nextPropertyId: int)

  /** The result of an endpoint: the store afterwards and the reply. */
  datatype Step<+T> = Step(db: Db, reply: Reply<T>)

  function UserIds(db: Db): set<int> { Seqs.KeySet(db.users, IdOfUser) }
  function Usernames(db: Db): set<string> { Seqs.KeySet(db.users, NameOfUser) }
  function PropertyIds(db: Db): set<int> { Seqs.KeySet(db.properties, IdOfProperty) }
  function FavoriteKeys(db: Db): set<(int, int)> { Seqs.KeySet(db.favorites, KeyOfFavorite) }

  /** Every favorite names an existing user and an existing property. */
  ghost predicate ReferencesExist(db: Db) {
    forall f | f in db.favorites :: f.userId in UserIds(db) && f.propertyId in PropertyIds(db)
  }

  /** Identity values are positive and below the counter that generates the next one. */
  ghost predicate IdsBelowCounters(db: Db) {
    && 0 < db.nextUserId && 0 < db.nextPropertyId
    && (forall u | u in db.users :: 0 < u.id < db.nextUserId)
    && (forall p | p in db.properties :: 0 < p.id < db.nextPropertyId)
  }

  /**
   * The schema: primary keys on users and properties, the composite key (userId, propertyId)
   * on favorites, the unique index on username, and both foreign keys of favorites.
   */
  ghost predicate Valid(db: Db) {
    && Seqs.KeysDistinct(db.users, IdOfUser)
    && Seqs.KeysDistinct(db.users, NameOfUser)
    && Seqs.KeysDistinct(db.properties, IdOfProperty)
    && Seqs.KeysDistinct(db.favorites, KeyOfFavorite)
    && IdsBelowCounters(db)
    && ReferencesExist(db)
  }

  /** Look up a user by primary key (EF's `FindAsync`). */
  function FindUser(db: Db, id: int): (r: Option<User>)
    ensures r.Some? ==> r.value in db.users && r.value.id == id
    ensures r.Some? <==> id in UserIds(db)
  {
    Seqs.Find(db.users, (u: User) => u.id == id)
  }

  /** Look up a property by primary key (EF's `FindAsync`). */
  function FindProperty(db: Db, id: int): (r: Option<Property>)
    ensures r.Some? ==> r.value in db.properties && r.value.id == id
    ensures r.Some? <==> id in PropertyIds(db)
  {
    Seqs.Find(db.properties, (p: Property) => p.id == id)
  }

  /** In a valid store a primary key names one row: the row `FindUser` returns. */
  lemma UserRowUnique(db: Db, u: User)
    requires Valid(db)
    requires u in db.users
    ensures FindUser(db, u.id) == Some(u)
  {
    var found := FindUser(db, u.id).value;
    var i :| 0 <= i < |db.users| && db.users[i] == u;
    var j :| 0 <= j < |db.users| && db.users[j] == found;
  }

  /** In a valid store a primary key names one row: the row `FindProperty` returns. */
  lemma PropertyRowUnique(db: Db, p: Property)
    requires Valid(db)
    requires p in db.properties
    ensures FindProperty(db, p.id) == Some(p)
  {
    var found := FindProperty(db, p.id).value;
    var i :| 0 <= i < |db.properties| && db.properties[i] == p;
    var j :| 0 <= j < |db.properties| && db.properties[j] == found;
  }

  /**
   * Deleting a user row. The foreign key favorites.userId is declared ON DELETE CASCADE,
   * so the store also deletes the favorites of that user, and only those.
   */
  function DeleteUserRow(db: Db, id: int): (r: Db)
    ensures forall u | u in r.users :: u in db.users && u.id != id
    ensures forall u | u in db.users && u.id != id :: u in r.users
    ensures id !in UserIds(r)
    ensures forall f | f in r.favorites :: f in db.favorites && f.userId != id
    ensures forall f | f in db.favorites && f.userId != id :: f in r.favorites
    ensures r.properties == db.properties
    ensures r.nextUserId == db.nextUserId && r.nextPropertyId == db.nextPropertyId
  {
    db.(users := Seqs.Filter(db.users, (u: User) => u.id != id),
        favorites := Seqs.Filter(db.favorites, (f: Favorite) => f.userId != id))
  }

  /**
   * Deleting a property row. The foreign key favorites.propertyId is declared ON DELETE
   * CASCADE, so the store also deletes the favorites of that property, and only those.
   */
  function DeletePropertyRow(db: Db, id: int): (r: Db)
    ensures forall p | p in r.properties :: p in db.properties && p.id != id
    ensures forall p | p in db.properties && p.id != id :: p in r.properties
    ensures id !in PropertyIds(r)
    ensures forall f | f in r.favorites :: f in db.favorites && f.propertyId != id
    ensures forall f | f in db.favorites && f.propertyId != id :: f in r.favorites
    ensures r.users == db.users
    ensures r.nextUserId == db.nextUserId && r.nextPropertyId == db.nextPropertyId
  {
    db.(properties := Seqs.Filter(db.properties, (p: Property) => p.id != id),
        favorites := Seqs.Filter(db.favorites, (f: Favorite) => f.propertyId != id))
  }

  /** Deleting a favorite row by its composite key. */
  function DeleteFavoriteRow(db: Db, userId: int, propertyId: int): (r: Db)
    ensures FavoriteKeys(r) == FavoriteKeys(db) - {(userId, propertyId)}
    ensures forall f | f in r.favorites :: f in db.favorites
    ensures forall f | f in db.favorites && KeyOfFavorite(f) != (userId, propertyId) :: f in r.favorites
    ensures r.users == db.users && r.properties == db.properties
    ensures r.nextUserId == db.nextUserId && r.nextPropertyId == db.nextPropertyId
  {
    var keep := (f: Favorite) => KeyOfFavorite(f) != (userId, propertyId);
    Seqs.FilterOutKey(db.favorites, keep, KeyOfFavorite, (userId, propertyId));
    db.(favorites := Seqs.Filter(db.favorites, keep))
  }

  /** The cascade on user deletion keeps every constraint of the schema. */
  lemma DeleteUserRowKeepsValid(db: Db, id: int)
    requires Valid(db)
    ensures Valid(DeleteUserRow(db, id))
  {
    var r := DeleteUserRow(db, id);
    Seqs.FilterKeysDistinct(db.users, (u: User) => u.id != id, IdOfUser);
    Seqs.FilterKeysDistinct(db.users, (u: User) => u.id != id, NameOfUser);
    Seqs.FilterKeysDistinct(db.favorites, (f: Favorite) => f.userId != id, KeyOfFavorite);
    forall f | f in r.favorites ensures f.userId in UserIds(r) && f.propertyId in PropertyIds(r) {
      var u :| u in db.users && IdOfUser(u) == f.userId;
      assert u in r.users;
    }
  }

  /** The cascade on property deletion keeps every constraint of the schema. */
  lemma DeletePropertyRowKeepsValid(db: Db, id: int)
    requires Valid(db)
    ensures Valid(DeletePropertyRow(db, id))
  {
    var r := DeletePropertyRow(db, id);
    Seqs.FilterKeysDistinct(db.properties, (p: Property) => p.id != id, IdOfProperty);
    Seqs.FilterKeysDistinct(db.favorites, (f: Favorite) => f.propertyId != id, KeyOfFavorite);
    forall f | f in r.favorites ensures f.userId in UserIds(r) && f.propertyId in PropertyIds(r) {
      var p :| p in db.properties && IdOfProperty(p) == f.propertyId;
      assert p in r.properties;
    }
  }

  /** Deleting one favorite keeps every constraint of the schema. */
  lemma DeleteFavoriteRowKeepsValid(db: Db, userId: int, propertyId: int)
    requires Valid(db)
    ensures Valid(DeleteFavoriteRow(db, userId, propertyId))
  {
    var keep := (f: Favorite) => KeyOfFavorite(f) != (userId, propertyId);
    Seqs.FilterKeysDistinct(db.favorites, keep, KeyOfFavorite);
  }

  /** The seed users, created a whole number of days before `now`. */
  function SeedUsers(now: Timestamp): seq<User> {
    [ User(1, "customer1", now - 30 * SecondsPerDay),
      User(2, "customer2", now - 20 * SecondsPerDay),
      User(3, "customer3", now - 60 * SecondsPerDay) ]
  }

  /** The seed listings; prices in cents. */
  function SeedProperties(): seq<Property> {
    [ Property(1, "คอนโดหรูใจกลางเมือง", 350000000, "สาทร, กรุงเทพมหานคร",
               Some("https://example.com/images/condo1.jpg"),
               Some("คอนโดมิเนียมสุดหรู 2 ห้องนอน 2 ห้องน้ำ พร้อมสระว่ายน้ำและฟิตเนส")),
      Property(2, "บ้านเดี่ยว 3 ชั้น ทำเลดี", 890000000, "ลาดพร้าว, กรุงเทพมหานคร",
               Some("https://example.com/images/house1.jpg"),
               Some("บ้านเดี่ยว 4 ห้องนอน 5 ห้องน้ำ พื้นที่ 250 ตร.ม. จอดรถได้ 3 คัน")),
      Property(3, "ทาวน์เฮ้าส์สไตล์โมเดิร์น", 420000000, "รังสิต, ปทุมธานี",
               Some("https://example.com/images/townhouse1.jpg"),
               Some("ทาวน์เฮ้าส์ 3 ห้องนอน 3 ห้องน้ำ ตกแต่งครบพร้อมอยู่")),
      Property(4, "คอนโดวิวทะเล ชั้น 15", 560000000, "พัทยา, ชลบุรี",
               Some("https://example.com/images/condo2.jpg"),
               Some("คอนโด 2 ห้องนอน วิวทะเลสวยงาม ใกล้ชายหาด")),
      Property(5, "อพาร์ทเมนท์ใกล้ BTS", 210000000, "อารีย์, กรุงเทพมหานคร",
               Some("https://example.com/images/apartment1.jpg"),
               Some("สตูดิโอขนาด 30 ตร.ม. เดินไป BTS 5 นาที")) ]
  }

  /** The seed favorites, created a whole number of days before `now`. */
  function SeedFavorites(now: Timestamp): seq<Favorite> {
    [ Favorite(1, 1, now - 5 * SecondsPerDay),
      Favorite(1, 3, now - 3 * SecondsPerDay),
      Favorite(2, 2, now - 7 * SecondsPerDay),
      Favorite(2, 4, now - 2 * SecondsPerDay),
      Favorite(3, 1, now - 10 * SecondsPerDay),
      Favorite(3, 2, now - 8 * SecondsPerDay),
      Favorite(3, 5, now - 1 * SecondsPerDay) ]
  }

  /** The store as seeded when the schema is created; the identity counters continue after the seed ids. */
  function Seed(now: Timestamp): Db {
    Db(SeedUsers(now), SeedProperties(), SeedFavorites(now), 4, 6)
  }

  lemma SeedUsersFacts(now: Timestamp)
    ensures Seqs.KeySet(SeedUsers(now), IdOfUser) == {1, 2, 3}
    ensures Seqs.KeysDistinct(SeedUsers(now), IdOfUser)
    ensures Seqs.KeysDistinct(SeedUsers(now), NameOfUser)
    ensures forall u | u in SeedUsers(now) :: 0 < u.id < 4
  {
    var s := SeedUsers(now);
    forall k | k in Seqs.KeySet(s, IdOfUser) ensures k in {1, 2, 3} {
      var u :| u in s && IdOfUser(u) == k;
    }
    assert IdOfUser(s[0]) in Seqs.KeySet(s, IdOfUser);
    assert IdOfUser(s[1]) in Seqs.KeySet(s, IdOfUser);
    assert IdOfUser(s[2]) in Seqs.KeySet(s, IdOfUser);
    assert "customer1"[8] != "customer2"[8] && "customer1"[8] != "customer3"[8] && "customer2"[8] != "customer3"[8];
  }

  lemma SeedPropertyIds()
    ensures Seqs.KeysOf(SeedProperties(), IdOfProperty) == [1, 2, 3, 4, 5]
  {
  }

  /** A property table whose ids are 1, ..., 5 in order has those ids, distinct and within the counter 6. */
  lemma IdsOneToFive(s: seq<Property>)
    requires Seqs.KeysOf(s, IdOfProperty) == [1, 2, 3, 4, 5]
    ensures Seqs.KeySet(s, IdOfProperty) == {1, 2, 3, 4, 5}
    ensures Seqs.KeysDistinct(s, IdOfProperty)
    ensures forall p | p in s :: 0 < p.id < 6
  {
    var ks := Seqs.KeysOf(s, IdOfProperty);
    Seqs.KeySetIsKeysOf(s, IdOfProperty);
    assert (set k | k in ks) == {1, 2, 3, 4, 5};
    forall p | p in s ensures 0 < p.id < 6 {
      assert IdOfProperty(p) in Seqs.KeySet(s, IdOfProperty);
    }
  }

  lemma SeedPropertiesFacts()
    ensures Seqs.KeySet(SeedProperties(), IdOfProperty) == {1, 2, 3, 4, 5}
    ensures Seqs.KeysDistinct(SeedProperties(), IdOfProperty)
    ensures forall p | p in SeedProperties() :: 0 < p.id < 6
  {
    SeedPropertyIds();
    IdsOneToFive(SeedProperties());
  }

  lemma SeedFavoritesFacts(now: Timestamp)
    ensures Seqs.KeySet(SeedFavorites(now), KeyOfFavorite)
         == {(1, 1), (1, 3), (2, 2), (2, 4), (3, 1), (3, 2), (3, 5)}
    ensures Seqs.KeysDistinct(SeedFavorites(now), KeyOfFavorite)
    ensures |SeedFavorites(now)| == 7
  {
    var s := SeedFavorites(now);
    forall k | k in Seqs.KeySet(s, KeyOfFavorite)
      ensures k in {(1, 1), (1, 3), (2, 2), (2, 4), (3, 1), (3, 2), (3, 5)}
    {
      var f :| f in s && KeyOfFavorite(f) == k;
    }
    assert KeyOfFavorite(s[0]) in Seqs.KeySet(s, KeyOfFavorite);
    assert KeyOfFavorite(s[1]) in Seqs.KeySet(s, KeyOfFavorite);
    assert KeyOfFavorite(s[2]) in Seqs.KeySet(s, KeyOfFavorite);
    assert KeyOfFavorite(s[3]) in Seqs.KeySet(s, KeyOfFavorite);
    assert KeyOfFavorite(s[4]) in Seqs.KeySet(s, KeyOfFavorite);
    assert KeyOfFavorite(s[5]) in Seqs.KeySet(s, KeyOfFavorite);
    assert KeyOfFavorite(s[6]) in Seqs.KeySet(s, KeyOfFavorite);
  }

  /**
   * The seed satisfies every constraint of the schema: users 1-3 with distinct usernames,
   * properties 1-5, and seven distinct favorite pairs that all name seeded rows.
   */
  lemma SeedValid(now: Timestamp)
    ensures Valid(Seed(now))
    ensures UserIds(Seed(now)) == {1, 2, 3}
    ensures PropertyIds(Seed(now)) == {1, 2, 3, 4, 5}
    ensures FavoriteKeys(Seed(now)) == {(1, 1), (1, 3), (2, 2), (2, 4), (3, 1), (3, 2), (3, 5)}
    ensures |Seed(now).favorites| == 7
  {
    var db := Seed(now);
    SeedUsersFacts(now);
    SeedPropertiesFacts();
    SeedFavoritesFacts(now);
    forall f | f in db.favorites ensures f.userId in UserIds(db) && f.propertyId in PropertyIds(db) {
      assert KeyOfFavorite(f) in FavoriteKeys(db);
    }
  }
}

=== FILE: users.dfy ===
/** The users endpoints: list, fetch, create (unique username) and delete (cascading). */
module Users {
  import opened Wrappers
  import opened Models
  import opened Store
  import Seqs

  /** GET /api/users: the projection (id, username, createdAt) of every stored user. */
  function GetUsers(db: Db): seq<User> {
    db.users
  }

  /** In a valid store the listing names every stored user exactly once. */
  lemma GetUsersListsEachUserOnce(db: Db)
    requires Valid(db)
    ensures Seqs.KeySet(GetUsers(db), IdOfUser) == UserIds(db)
    ensures Seqs.KeysDistinct(GetUsers(db), IdOfUser)
    ensures |GetUsers(db)| == |UserIds(db)|
  {
    Seqs.KeySetSize(db.users, IdOfUser);
  }

  /** GET /api/users/{id}: the user with that id, or NotFound. */
  function GetUser(db: Db, id: int): (r: Reply<User>)
    ensures r.Ok? <==> id in UserIds(db)
    ensures r.Err? ==> r.error == NotFound
    ensures r.Ok? ==> r.value in db.users && r.value.id == id
  {
    match FindUser(db, id)
    case Some(u) => Ok(u)
    case None => Err(NotFound)
  }

  /**
   * POST /api/users. `username` is None when the field is missing. An empty or missing
   * username is a validation error; a username already stored is a conflict; otherwise a
   * user with the next identity value is appended.
   */
  function CreateUser(db: Db, username: Option<string>, now: Timestamp): (r: Step<User>)
    ensures (username.None? || username.value == "") ==> r == Step(db, Err(Validation))
    ensures username.Some? && username.value != "" && username.value in Usernames(db)
            ==> r == Step(db, Err(Conflict))
    ensures r.reply.Ok? <==> username.Some? && username.value != "" && username.value !in Usernames(db)
    ensures r.reply.Err? ==> r.db == db
    ensures r.reply.Ok? ==>
              && r.reply.value.username == username.value
              && r.reply.value.createdAt == now
              && r.db.users == db.users + [r.reply.value]
              && r.db.properties == db.properties
              && r.db.favorites == db.favorites
              && r.db.nextPropertyId == db.nextPropertyId
    ensures r.reply.Ok? && Valid(db) ==> r.reply.value.id !in UserIds(db)
  {
    if username.None? || username.value == "" then
      Step(db, Err(Validation))
    else if username.value in Usernames(db) then
      Step(db, Err(Conflict))
    else
      var user := User(db.nextUserId, username.value, now);
      Step(db.(users := db.users + [user], nextUserId := db.nextUserId + 1), Ok(user))
  }

  /** Creating a user keeps every constraint of the schema, the unique username index included. */
  lemma CreateUserKeepsValid(db: Db, username: Option<string>, now: Timestamp)
    requires Valid(db)
    ensures Valid(CreateUser(db, username, now).db)
  {
    var r := CreateUser(db, username, now);
    if r.reply.Ok? {
      var user := r.reply.value;
      Seqs.AppendKeysDistinct(db.users, user, IdOfUser);
      Seqs.AppendKeysDistinct(db.users, user, NameOfUser);
      Seqs.KeySetAppend(db.users, user, IdOfUser);
    }
  }

  /** A second user with the same name is refused, and the store keeps exactly one user of that name. */
  lemma CreateUserTwiceConflicts(db: Db, name: string, now1: Timestamp, now2: Timestamp)
    requires Valid(db)
    requires CreateUser(db, Some(name), now1).reply.Ok?
    ensures var db1 := CreateUser(db, Some(name), now1).db;
            && CreateUser(db1, Some(name), now2) == Step(db1, Err(Conflict))
            && |Seqs.Filter(db1.users, (u: User) => u.username == name)| == 1
  {
    var r := CreateUser(db, Some(name), now1);
    var db1 := r.db;
    Seqs.KeySetAppend(db.users, r.reply.value, NameOfUser);
    var keep := (u: User) => u.username == name;
    Seqs.FilterAppend(db.users, [r.reply.value], keep);
    forall u | u in db.users ensures !keep(u) {
      assert NameOfUser(u) in Usernames(db);
    }
    Seqs.FilterKeepsNone(db.users, keep);
  }

  /**
   * DELETE /api/users/{id}: NotFound for a missing id; otherwise the user row is deleted and
   * the cascade deletes that user's favorites.
   */
  function DeleteUser(db: Db, id: int): (r: Step<()>)
    ensures r.reply.Ok? <==> id in UserIds(db)
    ensures r.reply.Err? ==> r == Step(db, Err(NotFound))
    ensures r.reply.Ok? ==>
              && id !in UserIds(r.db)
              && (forall u | u in db.users && u.id != id :: u in r.db.users)
              && (forall u | u in r.db.users :: u in db.users)
              && (forall f | f in r.db.favorites :: f in db.favorites && f.userId != id)
              && (forall f | f in db.favorites && f.userId != id :: f in r.db.favorites)
              && r.db.properties == db.properties
  {
    match FindUser(db, id)
    case None => Step(db, Err(NotFound))
    case Some(_) => Step(DeleteUserRow(db, id), Ok(()))
  }

  lemma DeleteUserKeepsValid(db: Db, id: int)
    requires Valid(db)
    ensures Valid(DeleteUser(db, id).db)
  {
    DeleteUserRowKeepsValid(db, id);
  }
}

=== FILE: wrappers.dfy ===
/** Optional values: a nullable reference, or a JSON field that may be missing. */
module Wrappers {

  datatype Option<+T> = None | Some(value: T) {

    /** The wrapped value, or `default` when there is none (C#'s `??`). */
    function GetOr(default: T): T {
      match this
      case Some(v) => v
      case None => default
    }

    /** This option if it holds a value, otherwise `other` (C#'s `??` on two nullables). */
    function Or(other: Option<T>): Option<T> {
      match this
      case Some(_) => this
      case None => other
    }
  }
}
